=== FILE: README.md ===
# stockviz dashboard — a Dafny model of its data logic

The stockviz dashboard is a single-page React application. A user drops a
CSV or Excel file on it, and the page guesses which column is the time axis
and which columns are numeric series. It then feeds those series to a line
chart, a bar chart, an area chart, a portfolio donut and a gauge. Before any
upload it shows built-in sample data.

This project models the logic behind that page as pure Dafny functions and
proves what the page promises about it:

- `seqs.dfy` (`Seqs`): `Array.prototype.find` and `Array.prototype.filter`.
  They are stated against independent definitions: the subsequence relation
  and element multiplicities.
- `js.dfy` (`Js`): the slice of JavaScript semantics the code relies on:
  - JavaScript numbers (NaN, ±Infinity, finite values) and the `Number(x)`
    conversion;
  - truthiness and `x > 0`;
  - ASCII `toLowerCase` and `includes`;
  - `split` on a one-character separator and `pop()`;
  - indexing past the end of an array and `a || b`.

  The string-to-number grammar of ECMA-262 section 7.1.4.1.1 is a parameter
  (`StringToNumber`). Every property holds for any conversion except two
  about the sample data, `Dashboard.SampleRowNumericKeys` and
  `Dashboard.SampleNumericKeysMatchHeuristic`. They require the month name
  to convert to NaN, as `Number('Jan')` does.
- `dashboard.dfy` (`Dashboard`): the page component `src/pages/Index.tsx`:
  - its state record and the `handleDataLoaded` transition;
  - `prepareChartData`, meaning the axis key, the numeric series keys and the
    sample fallback;
  - `getPortfolioData`;
  - the series key each chart is handed.
- `file_upload.dfy` (`FileUpload`): `processFile` of
  `src/components/FileUpload.tsx`. It covers:
  - the file type taken from the name;
  - the three-way dispatch;
  - the non-empty gate before the rows are handed to the page;
  - the notifications raised.

  The CSV parser and the Excel reader are not modelled. What they report is
  an input.
- `donut_chart.dfy` (`DonutChart`): the positive-value filter and the palette
  cycling of `src/components/charts/DonutChart.tsx`.
- `gauge_chart.dfy` (`GaugeChart`): the clamp, the percentage and the two
  half-donut slices of `src/components/charts/GaugeChart.tsx`.

A row of uploaded data is a sequence of `(key, value)` pairs in
`Object.keys` order. A cell is `undefined`, `null`, a boolean, a number or a
string.

What the code does, in the places where a reader might expect more:

- The uploaded rows are passed to the charts unchanged. Numeric-looking
  strings stay strings. The series test is
  `typeof v === 'number' || !isNaN(Number(v))` on the first row only.
- The axis key is the first key whose lower-cased name contains `date`,
  `time` or `period`, otherwise the first key. Cell values are not
  inspected.
- The file type comes from the last dot-separated piece of the name,
  lower-cased. The file's MIME type plays no part.
- The sample portfolio has five entries: AAPL 30, MSFT 25, AMZN 20,
  GOOGL 15, FB 10.
- An unsupported file still changes the displayed file name, because
  `setFileName` runs before the type check.
- A failed read on the Excel path raises no notification. See Findings.

## Model

| member | source | states |
|---|---|---|
| Seqs.Find | src/pages/Index.tsx:70-74 | `find` yields nothing exactly when no element passes. Otherwise it yields a passing element with no passing element before it. |
| Seqs.Filter | src/pages/Index.tsx:77-80 | `filter` keeps only passing elements and keeps every passing element. Its result is never longer than the input and only holds elements of the input. |
| Seqs.FilterIsSubsequence | src/components/charts/DonutChart.tsx:16 | `filter` never reorders: its result is a subsequence of the input. |
| Seqs.FilterMultiplicity | src/components/charts/DonutChart.tsx:16 | `filter` keeps each accepted item exactly as often as it occurs and drops every rejected one. |
| Seqs.FilterKeepsAll | src/components/charts/DonutChart.tsx:16 | Filtering a sequence whose items all pass returns it unchanged. |
| Seqs.FilterIdempotent | src/components/charts/DonutChart.tsx:16 | Filtering twice with the same test gives the same result as filtering once. |
| Seqs.SubsequenceMultiset | src/components/charts/DonutChart.tsx:16 | A subsequence holds each item at most as often as the sequence it was drawn from. |
| Seqs.FilterUnique | src/pages/Index.tsx:77-80 | Reference characterisation: the filter is the only order-preserving selection of passing items that keeps all their occurrences. |
| Js.ToNumber | src/pages/Index.tsx:79 | `Number(v)`: numbers unchanged, `undefined` gives NaN, `null` and `false` give 0, `true` gives 1, strings go through the string-to-number conversion. |
| Js.Truthy | src/components/charts/DonutChart.tsx:16 | JavaScript truthiness: `undefined`, `null`, `false`, `0`, NaN and `""` are falsy, everything else is truthy. |
| Js.IsPositive | src/components/charts/DonutChart.tsx:16 | `n > 0`: true for positive finite numbers and +Infinity, false for NaN. |
| Js.PositiveNumberIsTruthy | src/components/charts/DonutChart.tsx:16 | Any cell whose `Number` is positive is truthy, given that the empty string converts to +0 as ECMA-262 section 7.1.4.1.1 requires. |
| Js.LowerChar | src/pages/Index.tsx:71 | `toLowerCase` maps each of `A`–`Z` to its own lower-case letter, 32 code points on, and leaves every other character alone. |
| Js.Lower | src/pages/Index.tsx:71 | `toLowerCase` keeps the length and lower-cases character by character. |
| Js.LowerIdempotent | src/components/FileUpload.tsx:29 | Lower-casing an already lower-cased string changes nothing. |
| Js.LowerSuffix | src/components/FileUpload.tsx:29 | Lower-casing commutes with taking a suffix. |
| Js.Includes | src/pages/Index.tsx:71-73 | `s.includes(sub)`: `sub` starts at some position of `s`. Its meaning in terms of positions is stated by `Js.IncludesIff`. |
| Js.IncludesIff | src/pages/Index.tsx:71-73 | `includes` holds exactly when the needle occurs at some position of the string. |
| Js.IncludesNeedsChars | src/pages/Index.tsx:71-73 | A string that includes a needle is at least as long and contains all of the needle's characters. |
| Js.At | src/pages/Index.tsx:74 | `keys[i]` is defined exactly when `i` is in range, and is then the `i`-th key. |
| Js.Or | src/pages/Index.tsx:74 | The logical or keeps `a` exactly when it is a non-empty string. Otherwise, including for `""`, it gives `b`. |
| Js.Split | src/components/FileUpload.tsx:29 | `split` on one character gives at least one piece. No piece contains the separator, and joining the pieces rebuilds the string. |
| Js.JoinLast | src/components/FileUpload.tsx:29 | Joining pieces equals joining all but the last, then the separator, then the last piece. |
| Js.LastPieceUnique | src/components/FileUpload.tsx:29 | The text after the last separator is unique. |
| Js.SplitLastIsLastPiece | src/components/FileUpload.tsx:29 | `split(sep).pop()` is the text after the last separator, or the whole string when there is none. |
| Js.LowerLastPiece | src/components/FileUpload.tsx:29 | Lower-casing maps the last piece of a name to the last piece of the lower-cased name, for a separator that is not a letter. |
| Dashboard.Keys | src/pages/Index.tsx:67 | `Object.keys(row)`: one key per property, in the row's property order. |
| Dashboard.Get | src/pages/Index.tsx:78-79 | `item[key]` on a row: the value of the key's first binding, or `undefined`. Characterised by `Dashboard.GetFirstBinding`. |
| Dashboard.GetFirstBinding | src/pages/Index.tsx:117-118 | `item[key]` reads the first binding of `key`, and `undefined` when the row has none. |
| Dashboard.HandleDataLoaded | src/pages/Index.tsx:30-44 | A non-empty upload replaces the data and sets `hasData` without a notification. An empty one changes nothing and raises "No data found". The sidebar is untouched. |
| Dashboard.ToggleSidebar | src/pages/Index.tsx:133 | The menu button flips the sidebar and leaves the data alone. |
| Dashboard.InitialIsConsistent | src/pages/Index.tsx:25-27 | The first render has no data and `hasData` false. |
| Dashboard.RunPreservesConsistent | src/pages/Index.tsx:30-44 | After any run of uploads and toggles, `hasData` holds exactly when there are rows. |
| Dashboard.UploadOfferedUntilData | src/pages/Index.tsx:137-141 | The upload widget stays on screen exactly until the first non-empty upload. After that it never returns. |
| Dashboard.UploadOffered | src/pages/Index.tsx:137 | The `!hasData &&` guard on the upload widget. How it evolves over a run is stated by `Dashboard.UploadOfferedUntilData`. |
| Dashboard.Uploaded | src/pages/Index.tsx:65 | The `hasData && stockData.length > 0` guard of `prepareChartData` and `getPortfolioData`. |
| Dashboard.UploadedIffNotOffered | src/pages/Index.tsx:65 | In every consistent state the charts show uploaded data exactly when the upload widget (the guard at line 137) is gone. |
| Dashboard.RunShowsLastUpload | src/pages/Index.tsx:30-44 | Uploads never merge: the rows shown are those of the last non-empty upload. |
| Dashboard.IsDateLike | src/pages/Index.tsx:70-73 | A key is date-like when its lower-cased name contains `date`, `time` or `period`. |
| Dashboard.MarkedKeyNonEmpty | src/pages/Index.tsx:74 | A key found by the date, symbol or weight heuristics is never the empty string. |
| Dashboard.DateKey | src/pages/Index.tsx:70-74 | The axis key is the first date-like key in key order, otherwise the first key, as written. It is `undefined` only for a row without keys. |
| Dashboard.IsNumericCell | src/pages/Index.tsx:78-79 | A cell is numeric when it is a JavaScript number, NaN included, or converts to a non-NaN number. |
| Dashboard.NumericKeys | src/pages/Index.tsx:77-80 | The series keys are exactly the first-row keys whose value is a number or converts to a non-NaN number, in key order. |
| Dashboard.NumericKeysUnique | src/pages/Index.tsx:77-80 | Reference characterisation: the series keys are the only order-preserving selection of numeric keys that keeps all of them. |
| Dashboard.PrepareChartData | src/pages/Index.tsx:64-94 | Uploaded rows go to the charts unchanged, with keys derived from the first row. Without an upload the sample series with `date` and `price, volume, return` are used. |
| Dashboard.ChartKeysDependOnFirstRowOnly | src/pages/Index.tsx:67-80 | Two uploads with the same first row get the same axis and series keys. |
| Dashboard.UploadedChartKeysComeFromFirstRow | src/pages/Index.tsx:67-80 | The axis key is a key of the first row, defined when that row has keys. Every series key is a first-row key with a numeric value. |
| Dashboard.NotDateLike | src/pages/Index.tsx:70-73 | A key missing some character of each of `date`, `time`, `period` is not date-like. |
| Dashboard.NotIncludedWithoutChar | src/pages/Index.tsx:71-73 | A string lacking one of the needle's characters does not include it. |
| Dashboard.SampleDateLikeKeys | src/pages/Index.tsx:48 | Of the sample's columns `date, price, volume, return`, exactly `date` is date-like. |
| Dashboard.DateIsDateLike | src/pages/Index.tsx:48 | The sample's `date` column is date-like. |
| Dashboard.PriceIsNotDateLike | src/pages/Index.tsx:48 | The sample's `price` column is not date-like. |
| Dashboard.VolumeIsNotDateLike | src/pages/Index.tsx:48 | The sample's `volume` column is not date-like. |
| Dashboard.ReturnIsNotDateLike | src/pages/Index.tsx:48 | The sample's `return` column is not date-like. |
| Dashboard.SampleRowKeys | src/pages/Index.tsx:47-53 | Every sample row has the keys `date, price, volume, return` in that order. |
| Dashboard.SampleRowCells | src/pages/Index.tsx:47-53 | A sample row holds its month as text and its price, volume and return as numbers. |
| Dashboard.SampleDateKeyMatchesHeuristic | src/pages/Index.tsx:89-93 | The hard-coded sample axis key `date` is what the heuristic would pick on the sample. |
| Dashboard.SampleRowNumericKeys | src/pages/Index.tsx:89-93 | The heuristic on a sample row whose month is not a number picks `price, volume, return`. |
| Dashboard.SampleNumericKeysMatchHeuristic | src/pages/Index.tsx:89-93 | The hard-coded sample series keys are what the heuristic would find on the sample. |
| Dashboard.SamplePortfolioPositive | src/pages/Index.tsx:55-61 | Every sample weight is a positive number. |
| Dashboard.IsSymbolLike | src/pages/Index.tsx:103-107 | A key holds symbols when its lower-cased name contains `symbol`, `ticker` or `stock`. |
| Dashboard.IsWeightLike | src/pages/Index.tsx:109-113 | A key holds weights when its lower-cased name contains `weight`, `allocation` or `percentage`. |
| Dashboard.PortfolioColumns | src/pages/Index.tsx:102-115 | Both portfolio columns are found exactly when some key is symbol-like and some key is weight-like. The first such keys are used. |
| Dashboard.HoldingsOf | src/pages/Index.tsx:116-119 | One holding per row, in row order: the symbol cell as the name and `Number` of the weight cell as the value. |
| Dashboard.PortfolioData | src/pages/Index.tsx:99-124 | Without an upload, or without both columns, the result is the five-entry sample. Otherwise each row becomes one holding read from the two columns. |
| Dashboard.SymbolIsSymbolLike | src/pages/Index.tsx:103-107 | A `Symbol` column is recognised as holding symbols. |
| Dashboard.WeightIsWeightLike | src/pages/Index.tsx:109-113 | A `Weight` column is recognised as holding weights. |
| Dashboard.SymbolIsNotWeightLike | src/pages/Index.tsx:109-113 | A `Symbol` column is not mistaken for a weight column. |
| Dashboard.SymbolWeightColumns | src/pages/Index.tsx:102-115 | A `Symbol,Weight` header selects exactly those two columns. |
| Dashboard.SymbolWeightPortfolio | src/pages/Index.tsx:99-124 | Under a `Symbol,Weight` header every uploaded row becomes a holding read from those columns. |
| Dashboard.LineKeys | src/pages/Index.tsx:175 | The line chart gets the first two series keys, or all of them when there are fewer. |
| Dashboard.SeriesKey | src/pages/Index.tsx:181 | `numericKeys[i]` or-ed with the fallback gives the `i`-th key when it exists and is non-empty, otherwise the fallback. |
| Dashboard.BarKey | src/pages/Index.tsx:181 | The bar chart plots the second series key when it exists and is non-empty, and `volume` otherwise. |
| Dashboard.AreaKey | src/pages/Index.tsx:196 | The area chart plots the third series key when it exists and is non-empty, and `return` otherwise. |
| Dashboard.AreaKeyFollowsLineKeys | src/pages/Index.tsx:175-196 | With three or more series keys whose third is non-empty, the line and area charts together plot the first three series in order. With fewer than three the area chart plots `return`. |
| Dashboard.BarKeyIsSecondLine | src/pages/Index.tsx:175-181 | With two or more series keys the bar chart plots the line chart's second series. With fewer it plots `volume`. |
| Dashboard.ChartedSeriesAreNumeric | src/pages/Index.tsx:175-196 | Every series handed to a chart is a numeric first-row key or that chart's literal default. |
| Dashboard.SampleSeriesPicks | src/pages/Index.tsx:175-196 | On the sample the line chart gets `price, volume`, the bar chart `volume` and the area chart `return`. |
| FileUpload.FileType | src/components/FileUpload.tsx:29 | The file type is the lower-cased text after the last dot of the name, or the whole lower-cased name when there is no dot. |
| FileUpload.FileTypeOfDotted | src/components/FileUpload.tsx:29 | For a name ending in a dot and an extension, only that final extension counts. |
| FileUpload.FileTypeWithoutDot | src/components/FileUpload.tsx:29 | A name without a dot is its own file type. |
| FileUpload.FileTypeIgnoresCase | src/components/FileUpload.tsx:29 | The file type does not depend on the case of the name. |
| FileUpload.FormatOf | src/components/FileUpload.tsx:29-31 | The dispatch of a file name: the three-way choice applied to its file type. |
| FileUpload.FormatOfDotted | src/components/FileUpload.tsx:29-31 | A name ending in a dot and an extension is dispatched on that extension, lower-cased, alone. |
| FileUpload.Classify | src/components/FileUpload.tsx:31-69 | `csv` goes to the CSV parser, `xlsx` or `xls` goes to the Excel reader, and anything else is unsupported. |
| FileUpload.CsvResult | src/components/FileUpload.tsx:32-45 | Parsed rows are handed on, with a success notification, exactly when there are any. Otherwise a failure notification is raised. |
| FileUpload.ExcelResult | src/components/FileUpload.tsx:47-66 | The rows are handed on exactly when the sheet has any. A thrown error gives a failure notification. A failed read gives none. |
| FileUpload.ProcessFile | src/components/FileUpload.tsx:26-70 | The name is always recorded. Only non-empty rows are handed on, unchanged and with a success notification. Whenever nothing is handed on, any notification is a failure, including an empty parse and an unsupported name. No notification at all happens exactly for a failed Excel read. |
| FileUpload.UnsupportedNeverParses | src/components/FileUpload.tsx:67-69 | An unsupported file is rejected whatever either parser would have produced. |
| FileUpload.PathsAreIndependent | src/components/FileUpload.tsx:31-69 | The CSV path consults only the CSV parser, and the Excel path only the Excel reader. |
| FileUpload.FormatIgnoresCase | src/components/FileUpload.tsx:29 | The dispatch does not depend on the case of the name. |
| FileUpload.LowerCaseCsvIsCsv | src/components/FileUpload.tsx:29-31 | Every name ending in `.csv`, whatever comes before it, goes to the CSV parser. |
| FileUpload.UpperCaseCsvIsCsv | src/components/FileUpload.tsx:29-31 | Every name ending in `.CSV` goes to the CSV parser: the extension's case does not matter. |
| FileUpload.InnerCsvExtensionIgnored | src/components/FileUpload.tsx:29-31 | Every name ending in `.csv.txt` is unsupported: an inner `.csv` does not count. |
| FileUpload.OuterCsvExtensionCounts | src/components/FileUpload.tsx:29-31 | Every name ending in `.txt.csv` goes to the CSV parser: only the last extension counts. |
| FileUpload.UpperCaseXlsxIsExcel | src/components/FileUpload.tsx:29-46 | Every name ending in `.XLSX` goes to the Excel reader. |
| FileUpload.XlsIsExcel | src/components/FileUpload.tsx:29-46 | Every name ending in `.xls` goes to the Excel reader. |
| FileUpload.BareNameIsItsOwnType | src/components/FileUpload.tsx:29-31 | A file named `CSV`, with no dot, goes to the CSV parser. |
| FileUpload.SilentExcelReadFailure | src/components/FileUpload.tsx:47-66 | As written, a failed Excel read hands nothing on and raises no notification. |
| FileUpload.SilentExcelReadFailureExample | src/components/FileUpload.tsx:47-66 | A failed read of any `.xls` file ends with the name shown and nothing else: no rows and no notification. |
| FileUpload.ExcelResultReported | src/components/FileUpload.tsx:47-66 | The Excel path with a reader error handler reports a failed read. Every other outcome is unchanged. |
| FileUpload.ProcessFileReported | src/components/FileUpload.tsx:26-70 | With the read error handled, every call ends in a notification, a failure exactly when nothing is handed on, and the same rows are handed on. |
| FileUpload.DeliveredUploadIsAccepted | src/pages/Index.tsx:139 | Rows handed over by the widget are always accepted by the page. The page then shows them and hides the widget. |
| DonutChart.ShownIffPositive | src/components/charts/DonutChart.tsx:16 | When the empty string converts to +0, an item is shown exactly when its value converts to a positive number: the `item[valueKey] &&` half of the test never removes an item. |
| DonutChart.ShownIff | src/components/charts/DonutChart.tsx:16 | A slice is shown case by case: missing, `null`, `false`, zero, negative and NaN values are dropped, `true` is kept, and strings are kept when non-empty and positive. |
| DonutChart.Shown | src/components/charts/DonutChart.tsx:16 | An item is shown when its value cell is truthy and its `Number` is positive. |
| DonutChart.FilteredData | src/components/charts/DonutChart.tsx:16 | The donut keeps the items with a positive value, in order, each as often as it occurs, and drops all others. |
| DonutChart.FilteredDataUnique | src/components/charts/DonutChart.tsx:16 | Reference characterisation: no other order-preserving selection of shown items that keeps all their occurrences exists. |
| DonutChart.FilteredDataIdempotent | src/components/charts/DonutChart.tsx:16 | Filtering the filtered data again changes nothing. |
| DonutChart.CellColors | src/components/charts/DonutChart.tsx:37-38 | Every slice gets a palette colour. With an empty palette every fill is `undefined`. |
| DonutChart.CellColorsCycle | src/components/charts/DonutChart.tsx:37-38 | Fills repeat with the palette's period, and the first slices take the palette in order. |
| DonutChart.DefaultPaletteFills | src/components/charts/DonutChart.tsx:14 | With no palette passed, as on the page, slice `i` takes the default colour `i mod 5`, so the sixth slice repeats the first colour. |
| DonutChart.Cells | src/components/charts/DonutChart.tsx:37-38 | There is one cell per kept item. |
| DonutChart.HoldingRow | src/pages/Index.tsx:116-119 | The `{ name, value }` object built for one holding. Its `value` cell is stated by `DonutChart.HoldingRowValue`. |
| DonutChart.HoldingRows | src/pages/Index.tsx:186-191 | The portfolio handed to the donut has as many rows as there are holdings. |
| DonutChart.HoldingRowsPointwise | src/pages/Index.tsx:186-191 | Row `i` of the portfolio handed to the donut is holding `i` as `{ name, value }`. |
| DonutChart.HoldingRowValue | src/pages/Index.tsx:186-191 | The donut's `value` cell of a holding is the holding's value. |
| DonutChart.FilterHoldingRows | src/pages/Index.tsx:186-191 | Filtering the portfolio rows follows filtering the holdings by positive value. |
| DonutChart.PortfolioDonutShowsPositiveHoldings | src/pages/Index.tsx:186-191 | The portfolio donut shows exactly the holdings whose value is a positive number. NaN weights disappear. |
| DonutChart.PositiveHoldingsFullyShown | src/pages/Index.tsx:186-191 | When every weight is positive, the donut shows every holding. |
| DonutChart.SamplePortfolioFullyShown | src/pages/Index.tsx:55-61 | All five sample holdings are shown. |
| GaugeChart.Max | src/components/charts/GaugeChart.tsx:22 | `Math.max` on finite reals: one of its arguments, and at least both. |
| GaugeChart.Min | src/components/charts/GaugeChart.tsx:22 | `Math.min` on finite reals: one of its arguments, and at most both. |
| GaugeChart.NormalizedValue | src/components/charts/GaugeChart.tsx:22 | The value is clamped into `[min, max]`: unchanged inside, pinned at either end outside. When `max < min` the result is `min`. |
| GaugeChart.Percentage | src/components/charts/GaugeChart.tsx:23 | NaN for an empty range. Otherwise the result is finite, lies between 0 and 100 for a proper range, and is 0 or 100 at and beyond the ends. |
| GaugeChart.PercentageMonotone | src/components/charts/GaugeChart.tsx:22-23 | The percentage never decreases as the value grows. |
| GaugeChart.PercentageInverse | src/components/charts/GaugeChart.tsx:22-23 | Inside the range, mapping the percentage back onto `[min, max]` recovers the value. |
| GaugeChart.DefaultRangePercentageIsClamp | src/components/charts/GaugeChart.tsx:17-23 | With the default range 0 to 100 the percentage is the clamped value. |
| GaugeChart.HundredMinus | src/components/charts/GaugeChart.tsx:28 | `100 - p` on a JavaScript number. NaN stays NaN. |
| GaugeChart.Render | src/components/charts/GaugeChart.tsx:22-58 | The label shows the raw value. The two slices `Value` and `Empty` sum to 100 for a non-empty range and are both NaN for an empty one. |
| GaugeChart.DashboardGauge | src/pages/Index.tsx:198-201 | The page's gauge with value 65 is 65 full and 35 empty, and is labelled 65. |
| GaugeChart.OutOfRangeLabelIsRaw | src/components/charts/GaugeChart.tsx:58 | A value above the range pins the gauge at 100 while the label keeps the raw value. |

## Left out

- Rendering: the JSX layout, the stats cards with constant values, and the internals of the line, bar and area charts. Only the keys they are handed are modelled.
- The CSV parser, the workbook decoder and `FileReader`. Their results are inputs (`CsvOutcome`, `ExcelOutcome`). The first-sheet selection and `sheet_to_json` are not modelled.
- Notifications are values naming their text. The toast library, timing and `console.log` are not modelled.
- Drag-and-drop state, the file input's `accept` attribute, and picking the first of several dropped files.
- Js.ToNumber: the string-to-number grammar is a parameter, not a definition.
- Js.Lower: only ASCII letters are lower-cased. Full Unicode case mapping (for example U+212A KELVIN SIGN becoming `k`) is not modelled.
- Js.LowerChar: only `A`–`Z` are lower-cased. Every other character is left alone, although JavaScript's `toLowerCase` also maps letters such as `Ä` to `ä`.
- FileUpload.ProcessFile: one call and the parser callbacks it triggers are folded into a single result, although in the component the callbacks run later. Overlapping calls, where a second file is chosen before the first finishes, and a read that never finishes are not modelled, so the shown name and the delivered rows always come from the same file here. The page model (`Dashboard.Run`) accepts deliveries in any order, which covers callbacks that finish out of order.
- Dashboard.Keys: the order of `Object.keys` is taken as given. The rule that integer-like keys come first is not modelled. A row may bind a key twice, which a JavaScript object cannot, and reading uses the first binding.
- GaugeChart.Percentage: value, min and max are finite reals. NaN or infinite props and IEEE rounding are not modelled. JavaScript's `-0` for a reversed range is modelled as 0.
- GaugeChart.Render: the slice colours and the `%` sign after the label are not modelled.

## Findings

| source | as written | input that shows it | evidently intended | confidence | as-written member | corrected member |
|---|---|---|---|---|---|---|
| src/components/FileUpload.tsx:47-66 | The Excel path sets only `onload` on the reader. A read that fails never reaches the `try`/`catch`, so the user sees no message and no data. | A file `prices.xls` whose read fails: the name is shown, no rows are handed on, and no notification is raised. | Every failure path raises a notification, as the CSV path and the other Excel failures do. | not executed; medium | FileUpload.SilentExcelReadFailure | FileUpload.ProcessFileReported |

=== FILE: dashboard.dfy ===
/**
  The dashboard page (src/pages/Index.tsx): its state record, the upload
  acceptance transition, and the chart inputs derived from the uploaded
  rows -- the axis key, the numeric series keys, the portfolio breakdown
  and the series each chart is given.
 */
module Dashboard {
  import opened Seqs
  import opened Js

  /** One uploaded record: its properties in `Object.keys` order. */
  type Row = seq<(string, Value)>

  /** The uploaded records in the order the parser produced them. */
  type Dataset = seq<Row>

  /** `Object.keys(row)`. */
  function Keys(row: Row): (ks: seq<string>)
    ensures |ks| == |row|
    ensures forall i :: 0 <= i < |row| ==> ks[i] == row[i].0
  {
    seq(|row|, i requires 0 <= i < |row| => row[i].0)
  }

  /** `row[key]`: the value of the first binding of `key`, `undefined` when
      the row has no such property. */
  function Get(row: Row, key: string): Value
  {
    match FirstIndex(Keys(row), (k: string) => k == key)
    case None => Undefined
    case Some(i) => row[i].1
  }

  /** Reading a property finds its first binding, and a missing property
      reads as `undefined`. */
  lemma GetFirstBinding(row: Row, key: string)
    ensures key !in Keys(row) ==> Get(row, key) == Undefined
    ensures key in Keys(row) ==> (key, Get(row, key)) in row
    ensures forall i :: 0 <= i < |row| && row[i].0 == key && (forall j :: 0 <= j < i ==> row[j].0 != key)
              ==> Get(row, key) == row[i].1
  {
  }

  // ---------------------------------------------------------------------------
  // State and the upload transition
  // ---------------------------------------------------------------------------

  /** The page's three `useState` hooks as one immutable record. */
  datatype State = State(stockData: Dataset, hasData: bool, sidebarOpen: bool)

  /** The state on first render. */
  const Initial: State := State([], false, false)

  /** The destructive toast "No data found in the uploaded file". */
  datatype Notice = NoDataFound

  /** A new state and the notification raised on the way, if any. */
  datatype Transition = Transition(state: State, notice: Option<Notice>)

  /** `handleDataLoaded(data)`: a non-empty upload replaces the data wholesale
      and marks the page as loaded; an empty one changes nothing and raises
      the error toast. The sidebar is never affected. */
  function HandleDataLoaded(st: State, data: Dataset): (t: Transition)
    ensures |data| > 0 ==> t.state.stockData == data && t.state.hasData && t.notice.None?
    ensures |data| == 0 ==> t.state == st && t.notice == Some(NoDataFound)
    ensures t.state.sidebarOpen == st.sidebarOpen
  {
    if |data| > 0 then Transition(st.(stockData := data, hasData := true), None)
    else Transition(st, Some(NoDataFound))
  }

  /** The header's menu button: `setSidebarOpen(!sidebarOpen)`. */
  function ToggleSidebar(st: State): (r: State)
    ensures r.sidebarOpen != st.sidebarOpen
    ensures r.stockData == st.stockData && r.hasData == st.hasData
  {
    st.(sidebarOpen := !st.sidebarOpen)
  }

  /** Something that changes the page state. */
  datatype Event = DataLoaded(data: Dataset) | SidebarToggled

  function Apply(st: State, ev: Event): State
  {
    match ev
    case DataLoaded(data) => HandleDataLoaded(st, data).state
    case SidebarToggled => ToggleSidebar(st)
  }

  /** The state after a sequence of events, first to last. */
  function Run(st: State, evs: seq<Event>): State
    decreases |evs|
  {
    if |evs| == 0 then st else Run(Apply(st, evs[0]), evs[1..])
  }

  /** `hasData` is set exactly when there are rows to show. */
  predicate Consistent(st: State)
  {
    st.hasData <==> |st.stockData| > 0
  }

  /** Every state reachable from the first render is consistent. */
  lemma {:induction false} RunPreservesConsistent(st: State, evs: seq<Event>)
    requires Consistent(st)
    ensures Consistent(Run(st, evs))
    decreases |evs|
  {
    if |evs| > 0 {
      RunPreservesConsistent(Apply(st, evs[0]), evs[1..]);
    }
  }

  lemma InitialIsConsistent()
    ensures Consistent(Initial)
    ensures !Initial.hasData && Initial.stockData == []
  {
  }

  /** The upload widget is rendered only while nothing has been loaded. */
  predicate UploadOffered(st: State)
  {
    !st.hasData
  }

  /** An upload that the page accepts. */
  predicate IsNonEmptyUpload(ev: Event)
  {
    ev.DataLoaded? && |ev.data| > 0
  }

  /** The upload widget is still offered after a run of events exactly when
      it was offered before and no event in the run was a non-empty upload:
      once data has been accepted, `hasData` never returns to false. */
  lemma {:induction false} UploadOfferedUntilData(st: State, evs: seq<Event>)
    ensures UploadOffered(Run(st, evs)) <==>
              UploadOffered(st) && forall i :: 0 <= i < |evs| ==> !IsNonEmptyUpload(evs[i])
    decreases |evs|
  {
    if |evs| > 0 {
      UploadOfferedUntilData(Apply(st, evs[0]), evs[1..]);
      assert forall i :: 1 <= i < |evs| ==> evs[1..][i - 1] == evs[i];
    }
  }

  /** The rows of the last non-empty upload in `evs`, or `current` if there is none. */
  function LastUpload(current: Dataset, evs: seq<Event>): Dataset
    decreases |evs|
  {
    if |evs| == 0 then current
    else LastUpload(if IsNonEmptyUpload(evs[0]) then evs[0].data else current, evs[1..])
  }

  /** Uploads never merge: the data shown is exactly the last non-empty upload. */
  lemma {:induction false} RunShowsLastUpload(st: State, evs: seq<Event>)
    ensures Run(st, evs).stockData == LastUpload(st.stockData, evs)
    decreases |evs|
  {
    if |evs| > 0 {
      RunShowsLastUpload(Apply(st, evs[0]), evs[1..]);
    }
  }

  // ---------------------------------------------------------------------------
  // Chart inputs (prepareChartData)
  // ---------------------------------------------------------------------------

  /** What `prepareChartData` hands to the charts. `dateKey` is `None` when it
      is `undefined` (a first row without properties). */
  datatype ChartInput = ChartInput(data: Dataset, dateKey: Option<string>, numericKeys: seq<string>)

  /** One month of the built-in sample series. */
  function SampleRow(month: string, price: real, volume: real, ret: real): Row
  {
    [("date", Text(month)), ("price", Num(Finite(price))), ("volume", Num(Finite(volume))), ("return", Num(Finite(ret)))]
  }

  /** The built-in sample series shown before any upload. */
  const SampleData: Dataset := [
    SampleRow("Jan", 100.0, 1200.0, 5.0),
    SampleRow("Feb", 120.0, 1400.0, 7.0),
    SampleRow("Mar", 110.0, 1100.0, -2.0),
    SampleRow("Apr", 130.0, 1500.0, 8.0),
    SampleRow("May", 140.0, 1700.0, 6.0)
  ]

  const SampleChartInput: ChartInput := ChartInput(SampleData, Some("date"), ["price", "volume", "return"])

  /** The page shows uploaded data rather than the sample. */
  predicate Uploaded(st: State)
  {
    st.hasData && |st.stockData| > 0
  }

  /** In every consistent state the charts show uploaded data exactly when
      the upload widget is gone: the two guards of the page agree. */
  lemma UploadedIffNotOffered(st: State)
    requires Consistent(st)
    ensures Uploaded(st) <==> !UploadOffered(st)
  {
  }

  /** A column name that looks like a time axis. */
  predicate IsDateLike(key: string)
  {
    var k := Lower(key);
    Includes(k, "date") || Includes(k, "time") || Includes(k, "period")
  }

  /** A name containing a non-empty marker is itself non-empty. */
  lemma MarkedKeyNonEmpty(key: string, marker: string)
    requires marker != "" && Includes(Lower(key), marker)
    ensures key != ""
  {
    IncludesNeedsChars(Lower(key), marker);
  }

  /** `keys.find(isDateLike) || keys[0]`: the first date-like key in key
      order, otherwise the first key; `undefined` only when there are no
      keys. The key is returned as written, not lower-cased. */
  function DateKey(keys: seq<string>): (r: Option<string>)
    ensures r.None? <==> |keys| == 0
    ensures r.Some? ==> r.value in keys
    ensures (exists i :: 0 <= i < |keys| && IsDateLike(keys[i])) ==>
              r.Some? && IsDateLike(r.value)
              && exists i :: 0 <= i < |keys| && keys[i] == r.value && forall j :: 0 <= j < i ==> !IsDateLike(keys[j])
    ensures (forall i :: 0 <= i < |keys| ==> !IsDateLike(keys[i])) && |keys| > 0 ==> r == Some(keys[0])
  {
    var found := Find(keys, IsDateLike);
    assert found.Some? ==> found.value != "" by {
      if found.Some? {
        MarkedKeyNonEmpty(found.value, if Includes(Lower(found.value), "date") then "date"
                                       else if Includes(Lower(found.value), "time") then "time"
                                       else "period");
      }
    }
    Or(found, At(keys, 0))
  }

  /** `typeof v === 'number' || !isNaN(Number(v))`. A native number cell
      passes even when it holds NaN. */
  predicate IsNumericCell(v: Value, stringToNumber: StringToNumber)
  {
    v.Num? || !ToNumber(v, stringToNumber).NaN?
  }

  /** `keys.filter(...)` over the first row: the keys whose value in that row
      is numeric, in key order. */
  function NumericKeys(row: Row, stringToNumber: StringToNumber): (r: seq<string>)
    ensures IsSubsequence(r, Keys(row))
    ensures forall k :: k in r ==> IsNumericCell(Get(row, k), stringToNumber)
    ensures forall k :: k in Keys(row) && IsNumericCell(Get(row, k), stringToNumber) ==> k in r
  {
    var isNumeric := (k: string) => IsNumericCell(Get(row, k), stringToNumber);
    FilterIsSubsequence(Keys(row), isNumeric);
    Filter(Keys(row), isNumeric)
  }

  /** Reference characterisation of the series keys: the only subsequence of
      the first row's keys that holds just numeric ones and keeps every
      occurrence of each numeric key. */
  lemma NumericKeysUnique(row: Row, stringToNumber: StringToNumber, r: seq<string>)
    requires IsSubsequence(r, Keys(row))
    requires forall i :: 0 <= i < |r| ==> IsNumericCell(Get(row, r[i]), stringToNumber)
    requires forall k :: IsNumericCell(Get(row, k), stringToNumber) ==> multiset(r)[k] == multiset(Keys(row))[k]
    ensures r == NumericKeys(row, stringToNumber)
  {
    FilterUnique(Keys(row), (k: string) => IsNumericCell(Get(row, k), stringToNumber), r);
  }

  /** `prepareChartData()`: uploaded rows are passed on untouched, with keys
      derived from the first row alone; otherwise the sample series. */
  function PrepareChartData(st: State, stringToNumber: StringToNumber): (c: ChartInput)
    ensures !Uploaded(st) ==> c == SampleChartInput
    ensures Uploaded(st) ==> c.data == st.stockData
    ensures Uploaded(st) ==> c.dateKey == DateKey(Keys(st.stockData[0]))
    ensures Uploaded(st) ==> c.numericKeys == NumericKeys(st.stockData[0], stringToNumber)
  {
    if Uploaded(st) then
      var first := st.stockData[0];
      ChartInput(st.stockData, DateKey(Keys(first)), NumericKeys(first, stringToNumber))
    else
      SampleChartInput
  }

  /** Only the first row is ever inspected: two uploads that agree on their
      first row get the same axis and series keys. */
  lemma ChartKeysDependOnFirstRowOnly(st1: State, st2: State, stringToNumber: StringToNumber)
    requires Uploaded(st1) && Uploaded(st2)
    requires st1.stockData[0] == st2.stockData[0]
    ensures PrepareChartData(st1, stringToNumber).dateKey == PrepareChartData(st2, stringToNumber).dateKey
    ensures PrepareChartData(st1, stringToNumber).numericKeys == PrepareChartData(st2, stringToNumber).numericKeys
  {
  }

  /** With uploaded data the axis key, when defined, is a key of the first
      row, and every series key is one whose first-row value is numeric. */
  lemma UploadedChartKeysComeFromFirstRow(st: State, stringToNumber: StringToNumber)
    requires Uploaded(st)
    ensures var c := PrepareChartData(st, stringToNumber);
            && (c.dateKey.Some? ==> c.dateKey.value in Keys(st.stockData[0]))
            && (|st.stockData[0]| > 0 ==> c.dateKey.Some?)
            && forall k :: k in c.numericKeys ==> k in Keys(st.stockData[0]) && IsNumericCell(Get(st.stockData[0], k), stringToNumber)
  {
    var first := st.stockData[0];
    var nk := NumericKeys(first, stringToNumber);
    FilterMultiplicity(Keys(first), (k: string) => IsNumericCell(Get(first, k), stringToNumber));
    forall k | k in nk
      ensures k in Keys(first)
    {
      assert multiset(nk)[k] > 0;
    }
  }

  /** A key whose lower-cased form misses a character of each date marker is
      not date-like. */
  lemma NotDateLike(key: string, d: char, t: char, p: char)
    requires d in "date" && t in "time" && p in "period"
    requires d !in Lower(key) && t !in Lower(key) && p !in Lower(key)
    ensures !IsDateLike(key)
  {
    NotIncludedWithoutChar(Lower(key), "date", d);
    NotIncludedWithoutChar(Lower(key), "time", t);
    NotIncludedWithoutChar(Lower(key), "period", p);
  }

  lemma DateIsDateLike()
    ensures IsDateLike("date")
  {
    assert Lower("date") == "date";
  }

  lemma PriceIsNotDateLike()
    ensures !IsDateLike("price")
  {
    NotDateLike("price", 'd', 't', 'o');
  }

  lemma VolumeIsNotDateLike()
    ensures !IsDateLike("volume")
  {
    NotDateLike("volume", 'd', 't', 'p');
  }

  lemma ReturnIsNotDateLike()
    ensures !IsDateLike("return")
  {
    NotDateLike("return", 'd', 'i', 'p');
  }

  /** Of the sample's four columns only `date` looks like a time axis. */
  lemma SampleDateLikeKeys()
    ensures var keys := ["date", "price", "volume", "return"];
            forall i :: 0 <= i < |keys| ==> (IsDateLike(keys[i]) <==> i == 0)
  {
    DateIsDateLike();
    PriceIsNotDateLike();
    VolumeIsNotDateLike();
    ReturnIsNotDateLike();
  }

  /** A string lacking one of `sub`'s characters does not include `sub`. */
  lemma NotIncludedWithoutChar(s: string, sub: string, c: char)
    requires c in sub && c !in s
    ensures !Includes(s, sub)
  {
    if Includes(s, sub) {
      IncludesNeedsChars(s, sub);
    }
  }

  /** The keys of every sample row, in order. */
  lemma SampleRowKeys(month: string, price: real, volume: real, ret: real)
    ensures Keys(SampleRow(month, price, volume, ret)) == ["date", "price", "volume", "return"]
  {
  }

  /** Reading the cells of a sample row. */
  lemma SampleRowCells(month: string, price: real, volume: real, ret: real)
    ensures var row := SampleRow(month, price, volume, ret);
            && Get(row, "date") == Text(month)
            && Get(row, "price") == Num(Finite(price))
            && Get(row, "volume") == Num(Finite(volume))
            && Get(row, "return") == Num(Finite(ret))
  {
    var row := SampleRow(month, price, volume, ret);
    assert row[0].0 == "date";
    assert row[1].0 == "price" && row[0].0 != "price";
    assert row[2].0 == "volume" && row[0].0 != "volume" && row[1].0 != "volume";
    assert row[3].0 == "return" && row[0].0 != "return" && row[1].0 != "return" && row[2].0 != "return";
    GetFirstBinding(row, "volume");
    GetFirstBinding(row, "return");
  }

  /** The fixed fallback axis agrees with the heuristic applied to the sample. */
  lemma SampleDateKeyMatchesHeuristic()
    ensures DateKey(Keys(SampleData[0])) == SampleChartInput.dateKey
  {
    SampleRowKeys("Jan", 100.0, 1200.0, 5.0);
    DateIsDateLike();
  }

  /** The heuristic applied to any sample row whose month is not a number
      finds exactly the three value columns. */
  lemma SampleRowNumericKeys(month: string, price: real, volume: real, ret: real, stringToNumber: StringToNumber)
    requires stringToNumber(month).NaN?
    ensures NumericKeys(SampleRow(month, price, volume, ret), stringToNumber) == ["price", "volume", "return"]
  {
    var row := SampleRow(month, price, volume, ret);
    SampleRowKeys(month, price, volume, ret);
    SampleRowCells(month, price, volume, ret);
    var keys := Keys(row);
    var isNumeric := (k: string) => IsNumericCell(Get(row, k), stringToNumber);
    assert !isNumeric("date");
    assert isNumeric("price") && isNumeric("volume") && isNumeric("return");
    FilterKeepsLastThree("date", "price", "volume", "return", isNumeric);
  }

  /** Filtering four elements of which only the first fails. */
  lemma FilterKeepsLastThree<T>(a: T, b: T, c: T, d: T, p: T -> bool)
    requires !p(a) && p(b) && p(c) && p(d)
    ensures Filter([a, b, c, d], p) == [b, c, d]
  {
    assert [d][1..] == [];
    assert Filter([d], p) == [d];
    assert [c, d][1..] == [d];
    assert Filter([c, d], p) == [c] + [d];
    assert [b, c, d][1..] == [c, d];
    assert Filter([b, c, d], p) == [b] + [c, d];
    assert [a, b, c, d][1..] == [b, c, d];
  }

  /** The fixed fallback series agree with the heuristic: deriving them from
      the sample's first row, whose `date` cell "Jan" is not a number, gives
      exactly the hard-coded `numericKeys`. */
  lemma SampleNumericKeysMatchHeuristic(stringToNumber: StringToNumber)
    requires stringToNumber("Jan").NaN?
    ensures NumericKeys(SampleData[0], stringToNumber) == SampleChartInput.numericKeys
  {
    SampleRowNumericKeys("Jan", 100.0, 1200.0, 5.0, stringToNumber);
  }

  // ---------------------------------------------------------------------------
  // Portfolio breakdown (getPortfolioData)
  // ---------------------------------------------------------------------------

  /** One donut slice: `{ name, value }`. */
  datatype Holding = Holding(name: Value, value: Number)

  /** The constant breakdown used whenever none can be derived. */
  const SamplePortfolio: seq<Holding> := [
    Holding(Text("AAPL"), Finite(30.0)),
    Holding(Text("MSFT"), Finite(25.0)),
    Holding(Text("AMZN"), Finite(20.0)),
    Holding(Text("GOOGL"), Finite(15.0)),
    Holding(Text("FB"), Finite(10.0))
  ]

  /** Every sample weight is a positive number. */
  lemma SamplePortfolioPositive()
    ensures forall i :: 0 <= i < |SamplePortfolio| ==> IsPositive(SamplePortfolio[i].value)
  {
    var p := SamplePortfolio;
    forall i | 0 <= i < |p|
      ensures IsPositive(p[i].value)
    {
      assert i == 0 || i == 1 || i == 2 || i == 3 || i == 4;
    }
  }

  /** A column name that looks like it holds ticker symbols. */
  predicate IsSymbolLike(key: string)
  {
    var k := Lower(key);
    Includes(k, "symbol") || Includes(k, "ticker") || Includes(k, "stock")
  }

  /** A column name that looks like it holds portfolio weights. */
  predicate IsWeightLike(key: string)
  {
    var k := Lower(key);
    Includes(k, "weight") || Includes(k, "allocation") || Includes(k, "percentage")
  }

  /** `symbolKey && weightKey`: the first symbol-like and the first
      weight-like key of a row, when both exist. Found keys are never empty,
      so the truthiness test reduces to both being found. */
  function PortfolioColumns(keys: seq<string>): (r: Option<(string, string)>)
    ensures r.Some? <==> (exists i :: 0 <= i < |keys| && IsSymbolLike(keys[i]))
                         && (exists i :: 0 <= i < |keys| && IsWeightLike(keys[i]))
    ensures r.Some? ==> r.value.0 == Find(keys, IsSymbolLike).value && r.value.1 == Find(keys, IsWeightLike).value
  {
    var symbolKey := Find(keys, IsSymbolLike);
    var weightKey := Find(keys, IsWeightLike);
    if symbolKey.Some? && weightKey.Some? then
      var s := symbolKey.value;
      var w := weightKey.value;
      MarkedKeyNonEmpty(s, if Includes(Lower(s), "symbol") then "symbol"
                           else if Includes(Lower(s), "ticker") then "ticker"
                           else "stock");
      MarkedKeyNonEmpty(w, if Includes(Lower(w), "weight") then "weight"
                           else if Includes(Lower(w), "allocation") then "allocation"
                           else "percentage");
      if s != "" && w != "" then Some((s, w)) else None
    else
      None
  }

  /** `stockData.map(item => ({ name: item[symbolKey], value: Number(item[weightKey]) }))`. */
  function HoldingsOf(data: Dataset, symbolKey: string, weightKey: string, stringToNumber: StringToNumber): (h: seq<Holding>)
    ensures |h| == |data|
    ensures forall i :: 0 <= i < |data| ==>
              h[i] == Holding(Get(data[i], symbolKey), ToNumber(Get(data[i], weightKey), stringToNumber))
  {
    seq(|data|, i requires 0 <= i < |data| =>
      Holding(Get(data[i], symbolKey), ToNumber(Get(data[i], weightKey), stringToNumber)))
  }

  /** `getPortfolioData()`: one holding per uploaded row, in row order, when
      the first row has both a symbol-like and a weight-like column;
      otherwise the constant five-entry sample. */
  function PortfolioData(st: State, stringToNumber: StringToNumber): (p: seq<Holding>)
    ensures !Uploaded(st) ==> p == SamplePortfolio
    ensures Uploaded(st) && PortfolioColumns(Keys(st.stockData[0])).None? ==> p == SamplePortfolio
    ensures Uploaded(st) && PortfolioColumns(Keys(st.stockData[0])).Some? ==>
              var (symbolKey, weightKey) := PortfolioColumns(Keys(st.stockData[0])).value;
              && |p| == |st.stockData|
              && forall i :: 0 <= i < |p| ==>
                   p[i].name == Get(st.stockData[i], symbolKey)
                   && p[i].value == ToNumber(Get(st.stockData[i], weightKey), stringToNumber)
  {
    if Uploaded(st) then
      match PortfolioColumns(Keys(st.stockData[0]))
      case Some((symbolKey, weightKey)) => HoldingsOf(st.stockData, symbolKey, weightKey, stringToNumber)
      case None => SamplePortfolio
    else
      SamplePortfolio
  }

  lemma SymbolIsSymbolLike()
    ensures IsSymbolLike("Symbol")
  {
    assert Lower("Symbol") == "symbol";
  }

  lemma WeightIsWeightLike()
    ensures IsWeightLike("Weight")
  {
    assert Lower("Weight") == "weight";
  }

  lemma SymbolIsNotWeightLike()
    ensures !IsWeightLike("Symbol")
  {
    assert Lower("Symbol") == "symbol";
    NotIncludedWithoutChar("symbol", "weight", 'w');
    NotIncludedWithoutChar("symbol", "allocation", 'a');
    NotIncludedWithoutChar("symbol", "percentage", 'p');
  }

  /** A `Symbol,Weight` header selects exactly those two columns. */
  lemma SymbolWeightColumns()
    ensures PortfolioColumns(["Symbol", "Weight"]) == Some(("Symbol", "Weight"))
  {
    SymbolIsSymbolLike();
    WeightIsWeightLike();
    SymbolIsNotWeightLike();
    var keys := ["Symbol", "Weight"];
    assert Find(keys, IsSymbolLike) == Some("Symbol");
    assert Find(keys, IsWeightLike) == Some("Weight");
  }

  /** Under a `Symbol,Weight` header every row becomes one holding, read
      from those two columns. */
  lemma SymbolWeightPortfolio(data: Dataset, stringToNumber: StringToNumber)
    requires |data| > 0 && Keys(data[0]) == ["Symbol", "Weight"]
    ensures PortfolioData(State(data, true, false), stringToNumber) == HoldingsOf(data, "Symbol", "Weight", stringToNumber)
  {
    SymbolWeightColumns();
  }

  // ---------------------------------------------------------------------------
  // Series handed to each chart
  // ---------------------------------------------------------------------------

  /** `numericKeys.slice(0, 2)`: the line chart's series. */
  function LineKeys(numericKeys: seq<string>): (r: seq<string>)
    ensures |r| == if |numericKeys| < 2 then |numericKeys| else 2
    ensures r <= numericKeys
  {
    if |numericKeys| < 2 then numericKeys else numericKeys[..2]
  }

  /** `numericKeys[i] || fallback`: the key at `i` when it exists and is
      non-empty, the literal fallback otherwise. */
  function SeriesKey(numericKeys: seq<string>, i: nat, fallback: string): (r: string)
    ensures i < |numericKeys| && numericKeys[i] != "" ==> r == numericKeys[i]
    ensures !(i < |numericKeys| && numericKeys[i] != "") ==> r == fallback
  {
    Or(At(numericKeys, i), Some(fallback)).value
  }

  /** The bar chart's series: `numericKeys[1] || 'volume'`. */
  function BarKey(numericKeys: seq<string>): (r: string)
    ensures 1 < |numericKeys| && numericKeys[1] != "" ==> r == numericKeys[1]
    ensures !(1 < |numericKeys| && numericKeys[1] != "") ==> r == "volume"
  {
    SeriesKey(numericKeys, 1, "volume")
  }

  /** The area chart's series: `numericKeys[2] || 'return'`. */
  function AreaKey(numericKeys: seq<string>): (r: string)
    ensures 2 < |numericKeys| && numericKeys[2] != "" ==> r == numericKeys[2]
    ensures !(2 < |numericKeys| && numericKeys[2] != "") ==> r == "return"
  {
    SeriesKey(numericKeys, 2, "return")
  }

  /** With two or more (non-empty) numeric keys the bar chart plots the line
      chart's second series; otherwise it falls back to "volume". */
  lemma BarKeyIsSecondLine(numericKeys: seq<string>)
    ensures 2 <= |numericKeys| && numericKeys[1] != "" ==>
              |LineKeys(numericKeys)| == 2 && BarKey(numericKeys) == LineKeys(numericKeys)[1]
    ensures |numericKeys| < 2 ==> BarKey(numericKeys) == "volume"
  {
  }

  /** With three or more series keys whose third is non-empty, the line and
      area charts together plot the first three series, in order. */
  lemma AreaKeyFollowsLineKeys(numericKeys: seq<string>)
    ensures 3 <= |numericKeys| && numericKeys[2] != "" ==>
              LineKeys(numericKeys) + [AreaKey(numericKeys)] == numericKeys[..3]
    ensures |numericKeys| < 3 ==> AreaKey(numericKeys) == "return"
  {
  }

  /** Every series a chart is given is a numeric key of the first row or the
      chart's literal default. */
  lemma ChartedSeriesAreNumeric(st: State, stringToNumber: StringToNumber)
    requires Uploaded(st)
    ensures var nk := PrepareChartData(st, stringToNumber).numericKeys;
            && (forall k :: k in LineKeys(nk) ==> IsNumericCell(Get(st.stockData[0], k), stringToNumber))
            && (BarKey(nk) == "volume" || IsNumericCell(Get(st.stockData[0], BarKey(nk)), stringToNumber))
            && (AreaKey(nk) == "return" || IsNumericCell(Get(st.stockData[0], AreaKey(nk)), stringToNumber))
  {
    var nk := PrepareChartData(st, stringToNumber).numericKeys;
    forall k | k in LineKeys(nk)
      ensures k in nk
    {
      var i :| 0 <= i < |LineKeys(nk)| && LineKeys(nk)[i] == k;
      assert nk[i] == k;
    }
  }

  /** Before any upload the charts show the sample's three series. */
  lemma SampleSeriesPicks()
    ensures LineKeys(SampleChartInput.numericKeys) == ["price", "volume"]
    ensures BarKey(SampleChartInput.numericKeys) == "volume"
    ensures AreaKey(SampleChartInput.numericKeys) == "return"
  {
  }
}

=== FILE: donut_chart.dfy ===
/**
  The donut chart (src/components/charts/DonutChart.tsx): the filter that
  keeps only items with a positive value, and the cycling of the palette
  over the slices that remain.
 */
module DonutChart {
  import opened Seqs
  import opened Js
  import opened Dashboard

  /** The palette used when the caller gives none. */
  const DefaultColors: seq<string> := ["#1EAEDB", "#33C3F0", "#0FA0CE", "#5ED3F3", "#008CB4"]

  /** `item[valueKey] && Number(item[valueKey]) > 0`. */
  predicate Shown(item: Row, valueKey: string, stringToNumber: StringToNumber)
  {
    var v := Get(item, valueKey);
    Truthy(v) && IsPositive(ToNumber(v, stringToNumber))
  }

  /** Under the empty-string rule of `Number`, the truthiness half of the
      test adds nothing: an item is shown exactly when its value converts to
      a positive number. */
  lemma ShownIffPositive(item: Row, valueKey: string, stringToNumber: StringToNumber)
    requires stringToNumber("") == Finite(0.0)
    ensures Shown(item, valueKey, stringToNumber) <==> IsPositive(ToNumber(Get(item, valueKey), stringToNumber))
  {
    if IsPositive(ToNumber(Get(item, valueKey), stringToNumber)) {
      PositiveNumberIsTruthy(Get(item, valueKey), stringToNumber);
    }
  }

  /** Which cells survive, case by case: missing, `null`, zero, negative,
      NaN and non-numeric values are all dropped; `true` counts as 1. */
  lemma ShownIff(item: Row, valueKey: string, stringToNumber: StringToNumber)
    ensures Shown(item, valueKey, stringToNumber) <==>
              match Get(item, valueKey)
              case Undefined => false
              case Null => false
              case Bool(b) => b
              case Num(n) => IsPositive(n)
              case Text(s) => s != "" && IsPositive(stringToNumber(s))
  {
  }

  /** `data.filter(...)`: the items with a positive value, in their original
      order, each kept as often as it occurs. */
  function FilteredData(data: seq<Row>, valueKey: string, stringToNumber: StringToNumber): (r: seq<Row>)
    ensures IsSubsequence(r, data)
    ensures forall i :: 0 <= i < |r| ==> Shown(r[i], valueKey, stringToNumber)
    ensures forall item :: multiset(r)[item] == if Shown(item, valueKey, stringToNumber) then multiset(data)[item] else 0
  {
    var shown := (item: Row) => Shown(item, valueKey, stringToNumber);
    FilterIsSubsequence(data, shown);
    FilterMultiplicity(data, shown);
    Filter(data, shown)
  }

  /** Filtering the filtered data again changes nothing. */
  lemma FilteredDataIdempotent(data: seq<Row>, valueKey: string, stringToNumber: StringToNumber)
    ensures FilteredData(FilteredData(data, valueKey, stringToNumber), valueKey, stringToNumber)
            == FilteredData(data, valueKey, stringToNumber)
  {
    FilterIdempotent(data, (item: Row) => Shown(item, valueKey, stringToNumber));
  }

  /** The contract of `FilteredData` pins it down: any order-preserving
      selection of shown items that keeps every occurrence of each shown item
      is the filtered data. */
  lemma FilteredDataUnique(data: seq<Row>, valueKey: string, stringToNumber: StringToNumber, r: seq<Row>)
    requires IsSubsequence(r, data)
    requires forall i :: 0 <= i < |r| ==> Shown(r[i], valueKey, stringToNumber)
    requires forall item :: Shown(item, valueKey, stringToNumber) ==> multiset(r)[item] == multiset(data)[item]
    ensures r == FilteredData(data, valueKey, stringToNumber)
  {
    FilterUnique(data, (item: Row) => Shown(item, valueKey, stringToNumber), r);
  }

  /** `colors[index % colors.length]` for each slice; with an empty palette
      the index is NaN and every fill is `undefined`. */
  function CellColors(count: nat, colors: seq<string>): (r: seq<Option<string>>)
    ensures |r| == count
    ensures |colors| == 0 ==> forall i :: 0 <= i < count ==> r[i].None?
    ensures |colors| > 0 ==> forall i :: 0 <= i < count ==> r[i].Some? && r[i].value in colors
  {
    seq(count, i requires 0 <= i < count => if |colors| == 0 then None else Some(colors[i % |colors|]))
  }

  /** The fills repeat with the palette's period, and the first slices take
      the palette in order. */
  lemma CellColorsCycle(count: nat, colors: seq<string>)
    requires |colors| > 0
    ensures forall i :: 0 <= i < count && i + |colors| < count ==>
              CellColors(count, colors)[i + |colors|] == CellColors(count, colors)[i]
    ensures forall i :: 0 <= i < count && i < |colors| ==> CellColors(count, colors)[i] == Some(colors[i])
  {
    var r := CellColors(count, colors);
    forall i | 0 <= i < count && i + |colors| < count
      ensures r[i + |colors|] == r[i]
    {
      ModShift(i, |colors|);
    }
    forall i | 0 <= i < count && i < |colors|
      ensures r[i] == Some(colors[i])
    {
      assert i % |colors| == i;
    }
  }

  /** Adding the modulus does not change the remainder. */
  lemma ModShift(i: nat, n: nat)
    requires n > 0
    ensures (i + n) % n == i % n
  {
    var k := (i + n) / n - i / n - 1;
    assert n * k == i % n - (i + n) % n;
    assert 0 - n < n * k < n;
  }

  /** The page's donut passes no palette, so slice `i` is filled with the
      `i mod 5`-th default colour. */
  lemma DefaultPaletteFills(count: nat)
    ensures forall i :: 0 <= i < count ==> CellColors(count, DefaultColors)[i] == Some(DefaultColors[i % 5])
    ensures 5 < count ==> CellColors(count, DefaultColors)[5] == Some("#1EAEDB")
  {
  }

  /** One slice per kept item. */
  function Cells(data: seq<Row>, valueKey: string, stringToNumber: StringToNumber, colors: seq<string>): (r: seq<Option<string>>)
    ensures |r| == |FilteredData(data, valueKey, stringToNumber)|
  {
    CellColors(|FilteredData(data, valueKey, stringToNumber)|, colors)
  }

  /** A holding as the object the donut receives: `{ name, value }`. */
  function HoldingRow(h: Holding): Row
  {
    [("name", h.name), ("value", Num(h.value))]
  }

  function HoldingRows(p: seq<Holding>): (rows: seq<Row>)
    ensures |rows| == |p|
    decreases |p|
  {
    if |p| == 0 then [] else [HoldingRow(p[0])] + HoldingRows(p[1..])
  }

  /** Row `i` handed to the donut is holding `i` as `{ name, value }`. */
  lemma {:induction false} HoldingRowsPointwise(p: seq<Holding>)
    ensures forall i :: 0 <= i < |p| ==> HoldingRows(p)[i] == HoldingRow(p[i])
    decreases |p|
  {
    if |p| > 0 {
      HoldingRowsPointwise(p[1..]);
      assert forall i :: 1 <= i < |p| ==> p[1..][i - 1] == p[i];
    }
  }

  /** The donut's `value` cell of a holding is the holding's value. */
  lemma HoldingRowValue(h: Holding)
    ensures Get(HoldingRow(h), "value") == Num(h.value)
  {
    var row := HoldingRow(h);
    assert row[0].0 == "name" && row[1].0 == "value";
  }

  /** The filter over holding rows follows the filter over holdings. */
  lemma {:induction false} FilterHoldingRows(p: seq<Holding>, stringToNumber: StringToNumber)
    ensures Filter(HoldingRows(p), (item: Row) => Shown(item, "value", stringToNumber))
            == HoldingRows(Filter(p, (h: Holding) => IsPositive(h.value)))
    decreases |p|
  {
    var positive := (h: Holding) => IsPositive(h.value);
    var shown := (item: Row) => Shown(item, "value", stringToNumber);
    if |p| > 0 {
      var rows := HoldingRows(p);
      var rest := Filter(p[1..], positive);
      FilterHoldingRows(p[1..], stringToNumber);
      HoldingRowValue(p[0]);
      assert rows == [HoldingRow(p[0])] + HoldingRows(p[1..]);
      assert rows[0] == HoldingRow(p[0]) && rows[1..] == HoldingRows(p[1..]);
      assert shown(rows[0]) == positive(p[0]);
      if positive(p[0]) {
        assert Filter(p, positive) == [p[0]] + rest;
        assert ([p[0]] + rest)[1..] == rest;
        assert HoldingRows([p[0]] + rest) == [HoldingRow(p[0])] + HoldingRows(rest);
      } else {
        assert Filter(p, positive) == rest;
      }
    }
  }

  /** On the portfolio page the donut shows exactly the holdings whose value
      is a positive number (NaN weights from unparsable cells disappear). */
  lemma PortfolioDonutShowsPositiveHoldings(p: seq<Holding>, stringToNumber: StringToNumber)
    ensures FilteredData(HoldingRows(p), "value", stringToNumber)
            == HoldingRows(Filter(p, (h: Holding) => IsPositive(h.value)))
  {
    FilterHoldingRows(p, stringToNumber);
  }

  /** When every holding has a positive weight the donut shows them all. */
  lemma PositiveHoldingsFullyShown(p: seq<Holding>, stringToNumber: StringToNumber)
    requires forall i :: 0 <= i < |p| ==> IsPositive(p[i].value)
    ensures FilteredData(HoldingRows(p), "value", stringToNumber) == HoldingRows(p)
  {
    var positive := (h: Holding) => IsPositive(h.value);
    PortfolioDonutShowsPositiveHoldings(p, stringToNumber);
    FilterKeepsAll(p, positive);
  }

  /** The sample portfolio's five holdings are all shown. */
  lemma SamplePortfolioFullyShown(stringToNumber: StringToNumber)
    ensures FilteredData(HoldingRows(SamplePortfolio), "value", stringToNumber) == HoldingRows(SamplePortfolio)
  {
    SamplePortfolioPositive();
    PositiveHoldingsFullyShown(SamplePortfolio, stringToNumber);
  }
}

=== FILE: file_upload.dfy ===
/**
  The upload widget's `processFile` (src/components/FileUpload.tsx): the
  file type taken from the name, the three-way dispatch to the CSV parser,
  the Excel reader or the unsupported-format error, and the gate that hands
  only non-empty results to the page.

  The parsers and the file reader are not modelled; what they report is an
  input (`CsvOutcome`, `ExcelOutcome`).
 */
module FileUpload {
  import opened Seqs
  import opened Js
  import Dashboard

  /** `file.name.split('.').pop()?.toLowerCase()`: the lower-cased text
      after the last dot, or the whole lower-cased name if it has no dot. */
  function FileType(name: string): (t: string)
    ensures IsLastPiece(Lower(name), '.', t)
    ensures '.' !in t
  {
    var parts := Split(name, '.');
    var last := parts[|parts| - 1];
    SplitLastIsLastPiece(name, '.');
    LowerLastPiece(name, '.', last);
    Lower(last)
  }

  /** Only the final extension counts. */
  lemma FileTypeOfDotted(stem: string, extension: string)
    requires '.' !in extension
    ensures FileType(stem + "." + extension) == Lower(extension)
  {
    var name := stem + "." + extension;
    assert extension == name[|name| - |extension|..];
    assert IsLastPiece(name, '.', extension);
    LowerLastPiece(name, '.', extension);
    LastPieceUnique(Lower(name), '.', FileType(name), Lower(extension));
  }

  /** A name without a dot is its own file type, lower-cased. */
  lemma FileTypeWithoutDot(name: string)
    requires '.' !in name
    ensures FileType(name) == Lower(name)
  {
    assert IsLastPiece(name, '.', name);
    LowerLastPiece(name, '.', name);
    LastPieceUnique(Lower(name), '.', FileType(name), Lower(name));
  }

  /** The file type does not depend on the case of the name. */
  lemma FileTypeIgnoresCase(name: string)
    ensures FileType(Lower(name)) == FileType(name)
  {
    LowerIdempotent(name);
    LastPieceUnique(Lower(name), '.', FileType(Lower(name)), FileType(name));
  }

  /** Which way `processFile` goes. */
  datatype Format = Csv | Excel | Unsupported

  /** The dispatch on the file type. */
  function Classify(fileType: string): (f: Format)
    ensures f == Csv <==> fileType == "csv"
    ensures f == Excel <==> fileType == "xlsx" || fileType == "xls"
  {
    if fileType == "csv" then Csv
    else if fileType == "xlsx" || fileType == "xls" then Excel
    else Unsupported
  }

  /** How a file name is dispatched. */
  function FormatOf(name: string): Format
  {
    Classify(FileType(name))
  }

  /** The dispatch of a dotted name depends on its final extension alone. */
  lemma FormatOfDotted(stem: string, extension: string)
    requires '.' !in extension
    ensures FormatOf(stem + "." + extension) == Classify(Lower(extension))
  {
    FileTypeOfDotted(stem, extension);
  }

  /** What the CSV parser reports: its `complete` callback with the parsed
      rows, or its `error` callback with the error's message. */
  datatype CsvOutcome = CsvComplete(rows: Dashboard.Dataset) | CsvError(message: string)

  /** A value thrown while the workbook is decoded. */
  datatype Thrown = ErrorInstance(message: string) | OtherThrown

  /** What becomes of the Excel path: the first sheet's rows, an exception
      while decoding, or a failed read (the reader fires `error` and
      `loadend` but never `load`, and only `onload` is set). */
  datatype ExcelOutcome = SheetRows(rows: Dashboard.Dataset) | ExcelThrew(thrown: Thrown) | ReadFailed

  /** A notification. */
  datatype Toast = Success(text: string) | Failure(text: string)

  /** The observable effect of one `processFile` call together with the
      parser callbacks it triggers: the name the widget shows once the call
      returns, the rows handed to `onDataLoaded` (if it was called) and the
      toast raised (if any). */
  datatype Upload = Upload(fileName: string, delivered: Option<Dashboard.Dataset>, toast: Option<Toast>)

  const UnsupportedMessage: string := "Unsupported file format. Please upload a CSV or Excel file."

  /** The CSV `complete` / `error` callbacks. */
  function CsvResult(outcome: CsvOutcome): (r: (Option<Dashboard.Dataset>, Toast))
    ensures r.0.Some? <==> outcome.CsvComplete? && |outcome.rows| > 0
    ensures r.0.Some? ==> r.0.value == outcome.rows && r.1.Success?
    ensures r.0.None? ==> r.1.Failure?
  {
    match outcome
    case CsvComplete(rows) =>
      if |rows| > 0 then (Some(rows), Success("CSV data loaded successfully"))
      else (None, Failure("Error parsing CSV: No data found"))
    case CsvError(message) => (None, Failure("Error parsing CSV: " + message))
  }

  /** The Excel `onload` handler with its `try` / `catch`. */
  function ExcelResult(outcome: ExcelOutcome): (r: (Option<Dashboard.Dataset>, Option<Toast>))
    ensures r.0.Some? <==> outcome.SheetRows? && |outcome.rows| > 0
    ensures r.0.Some? ==> r.0.value == outcome.rows && r.1.Some? && r.1.value.Success?
    ensures r.1.None? <==> outcome.ReadFailed?
    ensures r.0.None? && r.1.Some? ==> r.1.value.Failure?
  {
    match outcome
    case SheetRows(rows) =>
      if |rows| > 0 then (Some(rows), Some(Success("Excel data loaded successfully")))
      else (None, Some(Failure("Error parsing Excel: No data found")))
    case ExcelThrew(thrown) =>
      var detail := if thrown.ErrorInstance? then thrown.message else "Unknown error";
      (None, Some(Failure("Error parsing Excel: " + detail)))
    case ReadFailed => (None, None)
  }

  /** `processFile(file)`: the name is recorded first, then the file type
      selects the CSV path, the Excel path or the unsupported-format error.
      Only a non-empty row sequence is ever handed on, and it is handed on
      exactly as the parser produced it. */
  function ProcessFile(name: string, csv: CsvOutcome, excel: ExcelOutcome): (u: Upload)
    ensures u.fileName == name
    ensures u.delivered.Some? ==> |u.delivered.value| > 0
    ensures u.delivered.Some? ==> u.toast.Some? && u.toast.value.Success?
    ensures u.delivered.None? && u.toast.Some? ==> u.toast.value.Failure?
    ensures u.toast.None? <==> FormatOf(name) == Excel && excel.ReadFailed?
    ensures FormatOf(name) == Unsupported ==> u.delivered.None? && u.toast == Some(Failure(UnsupportedMessage))
    ensures FormatOf(name) == Csv ==>
              (u.delivered.Some? <==> csv.CsvComplete? && |csv.rows| > 0)
              && (u.delivered.Some? ==> u.delivered.value == csv.rows)
    ensures FormatOf(name) == Excel ==>
              (u.delivered.Some? <==> excel.SheetRows? && |excel.rows| > 0)
              && (u.delivered.Some? ==> u.delivered.value == excel.rows)
    ensures csv.CsvError? && FormatOf(name) == Csv ==> u.delivered.None? && u.toast.Some? && u.toast.value.Failure?
    ensures excel.ExcelThrew? && FormatOf(name) == Excel ==> u.delivered.None? && u.toast.Some? && u.toast.value.Failure?
  {
    match FormatOf(name)
    case Csv =>
      var (delivered, toast) := CsvResult(csv);
      Upload(name, delivered, Some(toast))
    case Excel =>
      var (delivered, toast) := ExcelResult(excel);
      Upload(name, delivered, toast)
    case Unsupported =>
      Upload(name, None, Some(Failure(UnsupportedMessage)))
  }

  /** An unsupported file is rejected before any parse: the outcome does not
      depend on what either parser would have reported. */
  lemma UnsupportedNeverParses(name: string, csv1: CsvOutcome, excel1: ExcelOutcome, csv2: CsvOutcome, excel2: ExcelOutcome)
    ensures FormatOf(name) == Unsupported ==> ProcessFile(name, csv1, excel1) == ProcessFile(name, csv2, excel2)
  {
  }

  /** Each supported path consults only its own parser. */
  lemma PathsAreIndependent(name: string, csv1: CsvOutcome, excel1: ExcelOutcome, csv2: CsvOutcome, excel2: ExcelOutcome)
    ensures FormatOf(name) == Csv ==> ProcessFile(name, csv1, excel1) == ProcessFile(name, csv1, excel2)
    ensures FormatOf(name) == Excel ==> ProcessFile(name, csv1, excel1) == ProcessFile(name, csv2, excel1)
  {
  }

  /** Classification is case-insensitive. */
  lemma FormatIgnoresCase(name: string)
    ensures FormatOf(Lower(name)) == FormatOf(name)
  {
    FileTypeIgnoresCase(name);
  }

  /** Proof scaffolding for the worked cases below: how the dotted names
      they use are spelled, and the lower-cased form of each extension. */
  lemma DottedNameSpellings(stem: string)
    ensures stem + "." + "csv" == stem + ".csv"
    ensures stem + "." + "CSV" == stem + ".CSV"
    ensures stem + ".csv" + "." + "txt" == stem + ".csv.txt"
    ensures stem + ".txt" + "." + "csv" == stem + ".txt.csv"
    ensures stem + "." + "XLSX" == stem + ".XLSX"
    ensures stem + "." + "xls" == stem + ".xls"
    ensures Lower("csv") == "csv" && Lower("CSV") == "csv" && Lower("txt") == "txt"
    ensures Lower("XLSX") == "xlsx" && Lower("xls") == "xls"
  { }

  /** Worked case: any name ending in `.csv` is CSV. */
  lemma LowerCaseCsvIsCsv(stem: string)
    ensures FormatOf(stem + ".csv") == Csv
  {
    FormatOfDotted(stem, "csv");
    DottedNameSpellings(stem);
  }

  /** Worked case: an upper-case `.CSV` extension is still CSV. */
  lemma UpperCaseCsvIsCsv(stem: string)
    ensures FormatOf(stem + ".CSV") == Csv
  {
    FormatOfDotted(stem, "CSV");
    DottedNameSpellings(stem);
  }

  /** Worked case: a CSV extension followed by another one is not CSV. */
  lemma InnerCsvExtensionIgnored(stem: string)
    ensures FormatOf(stem + ".csv.txt") == Unsupported
  {
    FormatOfDotted(stem + ".csv", "txt");
    DottedNameSpellings(stem);
  }

  /** Worked case: a CSV extension after another one is CSV. */
  lemma OuterCsvExtensionCounts(stem: string)
    ensures FormatOf(stem + ".txt.csv") == Csv
  {
    FormatOfDotted(stem + ".txt", "csv");
    DottedNameSpellings(stem);
  }

  /** Worked case: an upper-case `.XLSX` extension goes to Excel. */
  lemma UpperCaseXlsxIsExcel(stem: string)
    ensures FormatOf(stem + ".XLSX") == Excel
  {
    FormatOfDotted(stem, "XLSX");
    DottedNameSpellings(stem);
  }

  /** Worked case: the older `.xls` extension goes to Excel too. */
  lemma XlsIsExcel(stem: string)
    ensures FormatOf(stem + ".xls") == Excel
  {
    FormatOfDotted(stem, "xls");
    DottedNameSpellings(stem);
  }

  /** Worked case: a name without a dot is its own extension. */
  lemma BareNameIsItsOwnType()
    ensures FormatOf("CSV") == Csv
  {
    FileTypeWithoutDot("CSV");
    assert Lower("CSV") == "csv";
  }

  /** As written, a failed read on the Excel path is silent: nothing is
      handed on and no notification is raised. */
  lemma SilentExcelReadFailure(name: string, csv: CsvOutcome)
    requires FormatOf(name) == Excel
    ensures ProcessFile(name, csv, ReadFailed).delivered.None?
    ensures ProcessFile(name, csv, ReadFailed).toast.None?
  {
  }

  /** Worked case: an `.xls` file whose read fails ends with its name shown
      and nothing else: no rows and no notification. */
  lemma SilentExcelReadFailureExample(stem: string, csv: CsvOutcome)
    ensures ProcessFile(stem + ".xls", csv, ReadFailed) == Upload(stem + ".xls", None, None)
  {
    XlsIsExcel(stem);
  }

  const ReadFailedMessage: string := "Error reading Excel file"

  /** The Excel path with an error handler on the reader: a failed read is
      reported like a failed parse, every other outcome is unchanged. */
  function ExcelResultReported(outcome: ExcelOutcome): (r: (Option<Dashboard.Dataset>, Toast))
    ensures r.0 == ExcelResult(outcome).0
    ensures ExcelResult(outcome).1.Some? ==> r.1 == ExcelResult(outcome).1.value
    ensures outcome.ReadFailed? ==> r.1.Failure?
  {
    match ExcelResult(outcome)
    case (delivered, Some(toast)) => (delivered, toast)
    case (delivered, None) => (delivered, Failure(ReadFailedMessage))
  }

  /** `processFile` with the reader's error handled: every call ends in a
      notification, a failure one exactly when nothing is handed on, and the
      rows handed on are those of `ProcessFile`. */
  function ProcessFileReported(name: string, csv: CsvOutcome, excel: ExcelOutcome): (u: Upload)
    ensures u.toast.Some?
    ensures u.delivered.None? <==> u.toast.value.Failure?
    ensures u.fileName == name && u.delivered == ProcessFile(name, csv, excel).delivered
    ensures ProcessFile(name, csv, excel).toast.Some? ==> u.toast == ProcessFile(name, csv, excel).toast
  {
    match FormatOf(name)
    case Csv =>
      var (delivered, toast) := CsvResult(csv);
      Upload(name, delivered, Some(toast))
    case Excel =>
      var (delivered, toast) := ExcelResultReported(excel);
      Upload(name, delivered, Some(toast))
    case Unsupported =>
      Upload(name, None, Some(Failure(UnsupportedMessage)))
  }

  /** What reaches the page through the widget is always accepted: the
      page's own "no data" toast cannot be triggered by an upload, and the
      page then shows exactly the parsed rows. */
  lemma DeliveredUploadIsAccepted(st: Dashboard.State, name: string, csv: CsvOutcome, excel: ExcelOutcome)
    requires ProcessFile(name, csv, excel).delivered.Some?
    ensures var rows := ProcessFile(name, csv, excel).delivered.value;
            var t := Dashboard.HandleDataLoaded(st, rows);
            t.notice.None? && t.state.hasData && t.state.stockData == rows && !Dashboard.UploadOffered(t.state)
  {
  }
}

=== FILE: gauge_chart.dfy ===
/**
  The gauge (src/components/charts/GaugeChart.tsx): the value clamped into
  `[min, max]`, its position as a percentage of the range, and the two
  half-donut slices built from it. Values are finite reals; `max == min`
  makes the percentage 0/0, which is NaN.
 */
module GaugeChart {
  import opened Js

  const DefaultMin: real := 0.0
  const DefaultMax: real := 100.0

  /** `Math.max(a, b)` on finite numbers. */
  function Max(a: real, b: real): (r: real)
    ensures a <= r && b <= r
    ensures r == a || r == b
  {
    if a >= b then a else b
  }

  /** `Math.min(a, b)` on finite numbers. */
  function Min(a: real, b: real): (r: real)
    ensures r <= a && r <= b
    ensures r == a || r == b
  {
    if a <= b then a else b
  }

  /** `normalizedValue = Math.max(min, Math.min(max, value))`. */
  function NormalizedValue(value: real, min: real, max: real): (r: real)
    ensures min <= max ==> min <= r <= max
    ensures min <= value <= max ==> r == value
    ensures min <= max && value <= min ==> r == min
    ensures min <= max && value >= max ==> r == max
    ensures max < min ==> r == min
  {
    Max(min, Min(max, value))
  }

  /** `((normalizedValue - min) / (max - min)) * 100`. */
  function Percentage(value: real, min: real, max: real): (p: Number)
    ensures min == max ==> p.NaN?
    ensures min != max ==> p.Finite?
    ensures min < max ==> 0.0 <= p.r <= 100.0
    ensures min < max && value <= min ==> p.r == 0.0
    ensures min < max && value >= max ==> p.r == 100.0
    ensures max < min ==> p.r == 0.0
  {
    var n := NormalizedValue(value, min, max);
    if max == min then NaN
    else
      FractionBounds(n - min, max - min);
      Finite((n - min) / (max - min) * 100.0)
  }

  /** A part of a positive whole is a fraction between 0 and 1. */
  lemma FractionBounds(part: real, whole: real)
    requires whole != 0.0
    ensures whole > 0.0 && 0.0 <= part <= whole ==> 0.0 <= part / whole <= 1.0
    ensures part == 0.0 ==> part / whole == 0.0
    ensures part == whole ==> part / whole == 1.0
  {
  }

  /** A larger part of the same positive whole is a larger fraction. */
  lemma FractionMonotone(a: real, b: real, whole: real)
    requires whole > 0.0 && a <= b
    ensures a / whole <= b / whole
  {
    assert b / whole - a / whole == (b - a) / whole;
  }

  /** The percentage never decreases as the value grows. */
  lemma PercentageMonotone(v1: real, v2: real, min: real, max: real)
    requires min < max && v1 <= v2
    ensures Percentage(v1, min, max).r <= Percentage(v2, min, max).r
  {
    var n1, n2 := NormalizedValue(v1, min, max), NormalizedValue(v2, min, max);
    assert n1 <= n2;
    FractionMonotone(n1 - min, n2 - min, max - min);
  }

  /** Inside the range the percentage determines the value: mapping it back
      onto `[min, max]` recovers the value exactly. */
  lemma PercentageInverse(value: real, min: real, max: real)
    requires min < max && min <= value <= max
    ensures min + Percentage(value, min, max).r / 100.0 * (max - min) == value
  {
    var d := max - min;
    assert (value - min) / d * 100.0 / 100.0 * d == value - min;
  }

  /** With the default range the percentage is the clamped value itself. */
  lemma DefaultRangePercentageIsClamp(value: real)
    ensures Percentage(value, DefaultMin, DefaultMax) == Finite(NormalizedValue(value, DefaultMin, DefaultMax))
  {
  }

  /** One half-donut slice. */
  datatype Slice = Slice(name: string, value: Number)

  /** What the gauge renders: the number in the centre text and the two slices. */
  datatype Gauge = Gauge(displayed: real, slices: seq<Slice>)

  /** `100 - n`. */
  function HundredMinus(n: Number): (r: Number)
    ensures n.Finite? ==> r == Finite(100.0 - n.r)
    ensures n.NaN? ==> r.NaN?
  {
    match n
    case NaN => NaN
    case PosInf => NegInf
    case NegInf => PosInf
    case Finite(x) => Finite(100.0 - x)
  }

  /** The gauge: a "Value" slice and an "Empty" slice that together make up
      100 whenever the range is not empty, each between 0 and 100 for a
      proper range; the label shows the value as given, not clamped. */
  function Render(value: real, min: real, max: real): (g: Gauge)
    ensures g.displayed == value
    ensures |g.slices| == 2 && g.slices[0].name == "Value" && g.slices[1].name == "Empty"
    ensures g.slices[0].value == Percentage(value, min, max)
    ensures min != max ==>
              g.slices[0].value.Finite? && g.slices[1].value.Finite?
              && g.slices[0].value.r + g.slices[1].value.r == 100.0
    ensures min < max ==> 0.0 <= g.slices[1].value.r <= 100.0
    ensures min == max ==> g.slices[0].value.NaN? && g.slices[1].value.NaN?
  {
    var percentage := Percentage(value, min, max);
    Gauge(value, [Slice("Value", percentage), Slice("Empty", HundredMinus(percentage))])
  }

  /** The dashboard's gauge (`value={65}`, default range) is 65 % full and
      labelled 65. */
  lemma DashboardGauge()
    ensures Render(65.0, DefaultMin, DefaultMax)
            == Gauge(65.0, [Slice("Value", Finite(65.0)), Slice("Empty", Finite(35.0))])
  {
    DefaultRangePercentageIsClamp(65.0);
  }

  /** Out-of-range values pin the gauge while the label keeps the raw value. */
  lemma OutOfRangeLabelIsRaw(value: real)
    requires value > DefaultMax
    ensures Render(value, DefaultMin, DefaultMax).displayed == value
    ensures Render(value, DefaultMin, DefaultMax).slices[0].value == Finite(100.0)
  {
  }
}

=== FILE: js.dfy ===
/**
  The slice of JavaScript value semantics the dashboard code depends on:
  the `Number(x)` conversion, truthiness, `x > 0`, ASCII `toLowerCase`,
  `String.prototype.includes`, `split` / `join` on a one-character
  separator, indexing past the end and `a || b` on strings.
 */
module Js {
  import opened Seqs

  /** A JavaScript number: the real values the model needs plus NaN and the infinities. */
  datatype Number = NaN | PosInf | NegInf | Finite(r: real)

  /** A cell of an uploaded row, or the result of reading a missing property. */
  datatype Value = Undefined | Null | Bool(b: bool) | Num(n: Number) | Text(s: string)

  /** StringToNumber of ECMA-262 section 7.1.4.1.1 (used by ToNumber, section
      7.1.4). Its grammar is not modelled: every operation that converts a
      string takes this conversion as a parameter. */
  type StringToNumber = string -> Number

  /** `Number(v)`. */
  function ToNumber(v: Value, stringToNumber: StringToNumber): (n: Number)
    ensures v.Num? ==> n == v.n
    ensures v.Undefined? ==> n.NaN?
    ensures v.Null? ==> n == Finite(0.0)
    ensures v.Text? ==> n == stringToNumber(v.s)
    ensures v.Bool? ==> n == Finite(if v.b then 1.0 else 0.0)
  {
    match v
    case Undefined => NaN
    case Null => Finite(0.0)
    case Bool(b) => if b then Finite(1.0) else Finite(0.0)
    case Num(n) => n
    case Text(s) => stringToNumber(s)
  }

  /** JavaScript truthiness: `undefined`, `null`, `false`, `0`, `NaN` and `""` are falsy. */
  predicate Truthy(v: Value)
  {
    match v
    case Undefined => false
    case Null => false
    case Bool(b) => b
    case Num(n) => !n.NaN? && n != Finite(0.0)
    case Text(s) => |s| > 0
  }

  /** `n > 0`; every comparison with NaN is false. */
  predicate IsPositive(n: Number)
  {
    n.PosInf? || (n.Finite? && n.r > 0.0)
  }

  /** A value whose `Number` is positive is truthy, whatever the cell, given
      the rule of ECMA-262 section 7.1.4.1.1 that the empty string converts
      to +0 (the only falsy string is the empty one). */
  lemma PositiveNumberIsTruthy(v: Value, stringToNumber: StringToNumber)
    requires stringToNumber("") == Finite(0.0)
    requires IsPositive(ToNumber(v, stringToNumber))
    ensures Truthy(v)
  {
  }

  /** `toLowerCase` on one character (ASCII letters only). */
  function LowerChar(c: char): (d: char)
    ensures 'A' <= c <= 'Z' ==> 'a' <= d <= 'z' && d as int == c as int + 32
    ensures !('A' <= c <= 'Z') ==> d == c
  {
    if 'A' <= c <= 'Z' then (c as int + 32) as char else c
  }

  /** `s.toLowerCase()`. */
  function Lower(s: string): (r: string)
    ensures |r| == |s|
    ensures forall i :: 0 <= i < |s| ==> r[i] == LowerChar(s[i])
  {
    seq(|s|, i requires 0 <= i < |s| => LowerChar(s[i]))
  }

  /** Lower-casing twice is lower-casing once. */
  lemma LowerIdempotent(s: string)
    ensures Lower(Lower(s)) == Lower(s)
  {
  }

  /** Lower-casing commutes with taking a suffix. */
  lemma LowerSuffix(s: string, k: nat)
    requires k <= |s|
    ensures Lower(s[k..]) == Lower(s)[k..]
  {
  }

  /** `s.startsWith(prefix)`. */
  predicate StartsWith(s: string, prefix: string)
  {
    |prefix| <= |s| && s[..|prefix|] == prefix
  }

  /** `s.includes(sub)`. */
  predicate Includes(s: string, sub: string)
    decreases |s|
  {
    StartsWith(s, sub) || (|s| > 0 && Includes(s[1..], sub))
  }

  /** `sub` occurs in `s` starting at position `i`. */
  predicate OccursAt(s: string, sub: string, i: nat)
  {
    i + |sub| <= |s| && s[i..i + |sub|] == sub
  }

  /** `Includes` agrees with the positional definition of a substring. */
  lemma {:induction false} IncludesIff(s: string, sub: string)
    ensures Includes(s, sub) <==> exists i: nat :: OccursAt(s, sub, i)
    decreases |s|
  {
    if StartsWith(s, sub) {
      assert OccursAt(s, sub, 0);
    }
    if |s| > 0 {
      IncludesIff(s[1..], sub);
      if Includes(s[1..], sub) {
        var i: nat :| OccursAt(s[1..], sub, i);
        assert s[i + 1..i + 1 + |sub|] == s[1..][i..i + |sub|];
        assert OccursAt(s, sub, i + 1);
      }
      if exists i: nat :: OccursAt(s, sub, i) {
        var i: nat :| OccursAt(s, sub, i);
        if i > 0 {
          assert s[1..][i - 1..i - 1 + |sub|] == s[i..i + |sub|];
          assert OccursAt(s[1..], sub, i - 1);
        }
      }
    } else if exists i: nat :: OccursAt(s, sub, i) {
      var i: nat :| OccursAt(s, sub, i);
      assert StartsWith(s, sub);
    }
  }

  /** A string can only include another whose characters it contains; in
      particular, whatever includes a non-empty string is non-empty. */
  lemma {:induction false} IncludesNeedsChars(s: string, sub: string)
    requires Includes(s, sub)
    ensures |sub| <= |s|
    ensures forall c :: c in sub ==> c in s
    decreases |s|
  {
    if !StartsWith(s, sub) {
      IncludesNeedsChars(s[1..], sub);
    } else {
      forall c | c in sub
        ensures c in s
      {
        var i :| 0 <= i < |sub| && sub[i] == c;
        assert s[i] == c;
      }
    }
  }

  /** `s[i]` on an array of strings, `undefined` past the end. */
  function At(s: seq<string>, i: nat): (r: Option<string>)
    ensures r.Some? <==> i < |s|
    ensures r.Some? ==> r.value == s[i]
  {
    if i < |s| then Some(s[i]) else None
  }

  /** `a || b` where both sides are a string or `undefined`: the empty string is falsy. */
  function Or(a: Option<string>, b: Option<string>): (r: Option<string>)
    ensures a.Some? && a.value != "" ==> r == a
    ensures !(a.Some? && a.value != "") ==> r == b
  {
    if a.Some? && a.value != "" then a else b
  }

  /** `parts.join(sep)`. */
  function Join(parts: seq<string>, sep: char): string
    decreases |parts|
  {
    if |parts| == 0 then ""
    else if |parts| == 1 then parts[0]
    else parts[0] + [sep] + Join(parts[1..], sep)
  }

  /** `s.split(sep)` for a one-character separator: at least one piece, none
      containing the separator, and joining them back gives `s`. */
  function Split(s: string, sep: char): (parts: seq<string>)
    ensures |parts| >= 1
    ensures forall i :: 0 <= i < |parts| ==> sep !in parts[i]
    ensures Join(parts, sep) == s
    decreases |s|
  {
    if |s| == 0 then [""]
    else
      var rest := Split(s[1..], sep);
      if s[0] == sep then
        assert ([""] + rest)[1..] == rest;
        assert s == [sep] + s[1..];
        [""] + rest
      else
        var first := [s[0]] + rest[0];
        assert ([first] + rest[1..])[1..] == rest[1..];
        assert s == [s[0]] + s[1..];
        [first] + rest[1..]
  }

  /** Joining with the last piece split off. */
  lemma {:induction false} JoinLast(parts: seq<string>, sep: char)
    requires |parts| >= 2
    ensures Join(parts, sep) == Join(parts[..|parts| - 1], sep) + [sep] + parts[|parts| - 1]
    decreases |parts|
  {
    var n := |parts|;
    var last := parts[n - 1];
    if n > 2 {
      var tail := parts[1..];
      var init := parts[..n - 1];
      JoinLast(tail, sep);
      assert tail[..n - 2] == init[1..];
      assert tail[n - 2] == last;
      calc {
        Join(parts, sep);
        parts[0] + [sep] + Join(tail, sep);
        parts[0] + [sep] + (Join(init[1..], sep) + [sep] + last);
        (parts[0] + [sep] + Join(init[1..], sep)) + [sep] + last;
        Join(init, sep) + [sep] + last;
      }
    }
  }

  /** `t` is what follows the last `sep` in `s` (all of `s` if there is none). */
  predicate IsLastPiece(s: string, sep: char, t: string)
  {
    && |t| <= |s|
    && t == s[|s| - |t|..]
    && sep !in t
    && (|t| < |s| ==> s[|s| - |t| - 1] == sep)
  }

  /** At most one string is the last piece of `s`. */
  lemma LastPieceUnique(s: string, sep: char, t1: string, t2: string)
    requires IsLastPiece(s, sep, t1) && IsLastPiece(s, sep, t2)
    ensures t1 == t2
  {
  }

  /** `s.split(sep).pop()` is the last piece of `s`. */
  lemma SplitLastIsLastPiece(s: string, sep: char)
    ensures IsLastPiece(s, sep, Split(s, sep)[|Split(s, sep)| - 1])
  {
    var parts := Split(s, sep);
    if |parts| >= 2 {
      JoinLast(parts, sep);
    }
  }

  /** Lower-casing a character other than a non-letter `sep` never yields `sep`. */
  lemma LowerCharAvoids(c: char, sep: char)
    requires !('A' <= sep <= 'Z') && !('a' <= sep <= 'z')
    requires c != sep
    ensures LowerChar(c) != sep
  {
  }

  /** Lower-casing a string without a non-letter `sep` does not introduce one. */
  lemma LowerAvoids(t: string, sep: char)
    requires !('A' <= sep <= 'Z') && !('a' <= sep <= 'z')
    requires sep !in t
    ensures sep !in Lower(t)
  {
    var lt := Lower(t);
    forall i | 0 <= i < |lt|
      ensures lt[i] != sep
    {
      LowerCharAvoids(t[i], sep);
    }
  }

  /** Lower-casing keeps a separator that is not a letter where it is, so
      it maps the last piece of `s` to the last piece of `Lower(s)`. */
  lemma LowerLastPiece(s: string, sep: char, t: string)
    requires !('A' <= sep <= 'Z') && !('a' <= sep <= 'z')
    requires IsLastPiece(s, sep, t)
    ensures IsLastPiece(Lower(s), sep, Lower(t))
  {
    var k := |s| - |t|;
    var ls := Lower(s);
    LowerSuffix(s, k);
    LowerAvoids(t, sep);
    if k > 0 {
      assert ls[k - 1] == LowerChar(s[k - 1]);
    }
  }
}

=== FILE: seqs.dfy ===
/**
  Order-preserving sequence operations the dashboard relies on: JavaScript's
  `Array.prototype.find` and `Array.prototype.filter`, and the subsequence
  relation used to say what a filter keeps.
 */
module Seqs {

  /** A value that may be absent, as `undefined` is in JavaScript. */
  datatype Option<+T> = None | Some(value: T)

  /** `a` can be obtained from `b` by deleting elements (greedy matching). */
  predicate IsSubsequence<T(==)>(a: seq<T>, b: seq<T>)
    decreases |b|
  {
    if |a| == 0 then true
    else if |b| == 0 then false
    else if a[0] == b[0] then IsSubsequence(a[1..], b[1..])
    else IsSubsequence(a, b[1..])
  }

  /** Index of the first element of `s` satisfying `p`, if any. */
  function FirstIndex<T>(s: seq<T>, p: T -> bool): (r: Option<nat>)
    ensures r.Some? ==> r.value < |s| && p(s[r.value])
    ensures r.Some? ==> forall j :: 0 <= j < r.value ==> !p(s[j])
    ensures r.None? ==> forall i :: 0 <= i < |s| ==> !p(s[i])
    decreases |s|
  {
    if |s| == 0 then None
    else if p(s[0]) then Some(0)
    else
      match FirstIndex(s[1..], p)
      case None => None
      case Some(i) => Some(i + 1)
  }

  /** `s.find(p)`: the first element satisfying `p`, or `undefined`. */
  function Find<T>(s: seq<T>, p: T -> bool): (r: Option<T>)
    ensures r.None? <==> forall i :: 0 <= i < |s| ==> !p(s[i])
    ensures r.Some? ==> p(r.value)
    ensures r.Some? ==>
      exists i :: 0 <= i < |s| && s[i] == r.value && forall j :: 0 <= j < i ==> !p(s[j])
  {
    match FirstIndex(s, p)
    case None => None
    case Some(i) => Some(s[i])
  }

  /** `s.filter(p)`: the elements of `s` satisfying `p`, in their original order. */
  function Filter<T>(s: seq<T>, p: T -> bool): (r: seq<T>)
    ensures |r| <= |s|
    ensures forall i :: 0 <= i < |r| ==> p(r[i])
    ensures forall i :: 0 <= i < |s| && p(s[i]) ==> s[i] in r
    ensures forall x :: x in r ==> x in s
    decreases |s|
  {
    if |s| == 0 then []
    else if p(s[0]) then [s[0]] + Filter(s[1..], p)
    else Filter(s[1..], p)
  }

  /** The filter never reorders: its result is a subsequence of its input. */
  lemma {:induction false} FilterIsSubsequence<T>(s: seq<T>, p: T -> bool)
    ensures IsSubsequence(Filter(s, p), s)
    decreases |s|
  {
    if |s| > 0 {
      var rest := Filter(s[1..], p);
      FilterIsSubsequence(s[1..], p);
      if p(s[0]) {
        assert Filter(s, p) == [s[0]] + rest;
        assert ([s[0]] + rest)[1..] == rest;
      } else if |rest| > 0 {
        assert p(rest[0]);
        assert rest[0] != s[0];
      }
    }
  }

  /** The filter keeps every occurrence of an accepted element and no
      occurrence of a rejected one. */
  lemma {:induction false} FilterMultiplicity<T>(s: seq<T>, p: T -> bool)
    ensures forall x :: multiset(Filter(s, p))[x] == if p(x) then multiset(s)[x] else 0
    decreases |s|
  {
    if |s| > 0 {
      FilterMultiplicity(s[1..], p);
      assert s == [s[0]] + s[1..];
      assert multiset(s) == multiset{s[0]} + multiset(s[1..]);
      if p(s[0]) {
        assert multiset(Filter(s, p)) == multiset{s[0]} + multiset(Filter(s[1..], p));
      }
    }
  }

  /** A sequence whose elements all pass is its own filter. */
  lemma {:induction false} FilterKeepsAll<T>(s: seq<T>, p: T -> bool)
    requires forall i :: 0 <= i < |s| ==> p(s[i])
    ensures Filter(s, p) == s
    decreases |s|
  {
    if |s| > 0 {
      FilterKeepsAll(s[1..], p);
      assert [s[0]] + s[1..] == s;
    }
  }

  /** Filtering twice with the same predicate changes nothing. */
  lemma FilterIdempotent<T>(s: seq<T>, p: T -> bool)
    ensures Filter(Filter(s, p), p) == Filter(s, p)
  {
    FilterKeepsAll(Filter(s, p), p);
  }

  /** A subsequence of `b` contains each element at most as often as `b`. */
  lemma {:induction false} SubsequenceMultiset<T>(a: seq<T>, b: seq<T>)
    requires IsSubsequence(a, b)
    ensures multiset(a) <= multiset(b)
    decreases |b|
  {
    if |a| > 0 {
      assert b == [b[0]] + b[1..];
      assert multiset(b) == multiset{b[0]} + multiset(b[1..]);
      if a[0] == b[0] {
        SubsequenceMultiset(a[1..], b[1..]);
        assert a == [a[0]] + a[1..];
        assert multiset(a) == multiset{a[0]} + multiset(a[1..]);
      } else {
        SubsequenceMultiset(a, b[1..]);
      }
    }
  }

  /** Reference characterisation: the filter is the ONLY subsequence of `s`
      whose elements all pass and which keeps every passing occurrence. */
  lemma {:induction false} FilterUnique<T>(s: seq<T>, p: T -> bool, r: seq<T>)
    requires IsSubsequence(r, s)
    requires forall i :: 0 <= i < |r| ==> p(r[i])
    requires forall x :: p(x) ==> multiset(r)[x] == multiset(s)[x]
    ensures r == Filter(s, p)
    decreases |s|
  {
    if |s| == 0 {
    } else {
      assert s == [s[0]] + s[1..];
      assert multiset(s) == multiset{s[0]} + multiset(s[1..]);
      if |r| > 0 && r[0] == s[0] {
        assert r == [r[0]] + r[1..];
        assert multiset(r) == multiset{r[0]} + multiset(r[1..]);
        FilterUnique(s[1..], p, r[1..]);
      } else {
        // r skips s[0], so s[0] cannot pass: otherwise r would miss one of its copies
        assert IsSubsequence(r, s[1..]);
        SubsequenceMultiset(r, s[1..]);
        if p(s[0]) {
          assert false;
        }
        FilterUnique(s[1..], p, r);
      }
    }
  }
}
